=== FILE: README.md ===
# Bank data-access layer, modelled in Dafny

This project models the repository layer of the bank simulator: the account
ledger, the payment-record store (authorizations, captures, voids and
refunds) and the idempotency cache. The database is one immutable value,
`Database.Db`, with three tables, each a map:

- `accounts`, keyed by account id;
- `transactions`, keyed by transaction id;
- `idempotency`, keyed by the pair (key, request path).

Every repository method is a pure function of that state, and the meaning of
each function is the SQL statement it issues. A read returns a tagged
`Models.Result`: `Ok(value)`, `Absent` (the expected "no row yet") or
`NotFound` (an error). It returns no new state, so it cannot change the
database. A write returns a `Database.Reply`, which holds the outcome and
the state after the write. The one exception is
`TransactionRepository.Create`, which returns a
`TransactionRepository.Created`: the caller's record as the call leaves it,
the outcome and the new state. A refused write answers `Failed(fault)`.

Modules follow the source files:

- `models.dfy` holds the row types and the result type.
- `database.dfy` holds the state and its well-formedness invariant. Each
  table is keyed by its rows' own identity, and no payment record has the
  nil id.
- `choice.dfy` fixes which row a single-row query returns when several rows
  match.
- `account.dfy`, `transaction.dfy` and `idempotency.dfy` hold the three
  repositories.
- `history.dfy` runs arbitrary sequences of writes and proves the
  invariants that every such sequence keeps.

Parameters stand in for the clock and for randomness. `now` is the reading
of `NOW()`. `newId` is the UUID that `uuid.New()` would draw; the model
requires it to be non-nil, as a random UUID always is. UUIDs are natural
numbers, and 0 is the nil UUID.

Where the intended design and the code differ, the model follows the code:

- A payment record is meant to point at the record it acts on through a
  reference id plus a reference type. The `transactions` table has only
  `reference_id`. The read by reference
  matches the record's own `type` against the requested type
  (bank/internal/repository/transaction.go:123).
- Three invariants are intended but not enforced by the code: the
  available balance never exceeds the balance
  (`available_balance_cents <= balance_cents`), the intended schema
  allows at most one record per (reference id, type), and the intended
  schema makes `account_number` unique. The model does not
  assume any of them:
  - `AccountRepository.AvailableMayExceedBalance` shows an adjustment
    breaking the first.
  - `TransactionRepository.DuplicateCaptureAccepted` shows two captures of
    one authorization being accepted.
  - The reads by account number and by reference return *some* matching
    row. They are fully determined only under the invariants
    `UniqueAccountNumbers` and `UniqueReferences`, which the lemmas
    `FindByAccountNumberUnique` and `FindByReferenceIdUnique` use as
    hypotheses.

## Model

| member | source | states |
|---|---|---|
| AccountRepository.FindById | bank/internal/repository/account.go:35-64 | returns the stored account exactly when the id is in the table (its id is the one asked for), and `NotFound` otherwise |
| AccountRepository.FindByAccountNumber | bank/internal/repository/account.go:67-96 | any account returned carries the requested number and is in the table; `NotFound` exactly when no account carries the number |
| AccountRepository.FindByAccountNumberForUpdate | bank/internal/repository/account.go:99-129 | without concurrency the locking read gives exactly the plain read's result, with the same guarantees |
| AccountRepository.FindByAccountNumberUnique | bank/internal/repository/account.go:72 | when account numbers are unique, the read by number returns exactly the account carrying it |
| AccountRepository.AdjustBalances | bank/internal/repository/account.go:132-155 | on an existing id both balances grow by their deltas and `updated_at` becomes `now`; id, number, cvv, expiry, `created_at`, every other account and the other tables stay unchanged; a missing id gives `NotFound` and leaves the state unchanged |
| AccountRepository.AdjustBalancesPreservesWellFormed | bank/internal/repository/account.go:134-138 | the update keeps the ledger keyed by account id |
| AccountRepository.ZeroAdjustmentSucceeds | bank/internal/repository/account.go:150-154 | a zero-delta adjustment of an existing account succeeds, so it is told apart from a missing id, and only `updated_at` changes |
| AccountRepository.AdjustBalancesCompose | bank/internal/repository/account.go:135-136 | two successive adjustments equal one adjustment by the summed deltas, in both outcome and state |
| AccountRepository.AdjustThenFindById | bank/internal/repository/account.go:133-139 | the next read of an adjusted account sees both balances moved by their deltas and its number unchanged |
| AccountRepository.HoldAllFunds | bank/internal/repository/account.go:135-136 | holding all funds of an account with 1000 cents, by the deltas (-1000, -1000), succeeds and leaves both balances at zero |
| AccountRepository.AdjustAllSums | bank/internal/repository/account.go:135-136 | after any sequence of adjustments of one account, each balance is its initial value plus the sum of its deltas and `updated_at` is the last call's time; the account's id, number, cvv, expiry and `created_at`, every other account and the other tables are unchanged: no update is lost |
| AccountRepository.AdjustAllMissing | bank/internal/repository/account.go:138-152 | any number of adjustments of a missing id leave the state unchanged |
| AccountRepository.AvailableMayExceedBalance | bank/internal/repository/account.go:133-139 | the update does not bound the available balance by the balance: one adjustment can push it above |
| TransactionRepository.AssignedId | bank/internal/repository/transaction.go:35-37 | a nil id is replaced by the freshly drawn UUID `newId` (non-nil); a caller's non-nil id is kept |
| TransactionRepository.Create | bank/internal/repository/transaction.go:34-73 | on every outcome the caller's record comes back carrying the assigned id, as the in-place write before encoding and insert leaves it; refuses with `MetadataEncoding` exactly when metadata is present and cannot be encoded, and with `DuplicateId` exactly when the metadata encodes and the assigned id is taken; a refusal changes nothing; a success returns the assigned non-nil id, adds exactly that record and leaves every other row unchanged |
| TransactionRepository.FindById | bank/internal/repository/transaction.go:76-114 | `NotFound` (an error, never `Absent`) exactly when the id is unknown; otherwise returns the stored record with that id |
| TransactionRepository.FindByReferenceId | bank/internal/repository/transaction.go:118-157 | `Absent` (not an error) exactly when no record of that type refers to `refId`; any record returned has that reference id and type and is in the table |
| TransactionRepository.FindByReferenceIdUnique | bank/internal/repository/transaction.go:123-124 | when references are unique per type, the read by reference returns exactly the one matching record |
| TransactionRepository.UpdateStatus | bank/internal/repository/transaction.go:160-181 | on an existing id only that record's status changes, to the given value; a missing id gives `NotFound` and leaves the state unchanged |
| TransactionRepository.CreatePreservesWellFormed | bank/internal/repository/transaction.go:48-53 | an insert keeps the table keyed by id and never stores the nil id |
| TransactionRepository.UpdateStatusPreservesWellFormed | bank/internal/repository/transaction.go:161-165 | a status update keeps the table keyed by id |
| TransactionRepository.CreateThenFindById | bank/internal/repository/transaction.go:48-67 | after a successful create, reading the returned id gives back the draft's account, type, amount, currency, reference, status, expiry and metadata; absent metadata reads back absent, and a nil (NULL) creation time reads back as `now` |
| TransactionRepository.CreateNeverOverwrites | bank/internal/repository/transaction.go:48-72 | a create leaves every existing record as it was, whatever its outcome |
| TransactionRepository.CreateThenFindByReference | bank/internal/repository/transaction.go:118-125 | once a record referring to `refId` has been created, the read by reference for its type answers with a matching record |
| TransactionRepository.UpdateStatusThenFindById | bank/internal/repository/transaction.go:161-165 | the next read after an update reports exactly the new status and the rest of the record unchanged |
| TransactionRepository.UpdateStatusIdempotent | bank/internal/repository/transaction.go:161-178 | repeating the same update succeeds again and changes nothing more |
| TransactionRepository.UpdateStatusLastWins | bank/internal/repository/transaction.go:161-165 | of two updates of one record, the later decides the status: the overwrite is unconditional |
| TransactionRepository.RetryReusesAssignedId | bank/internal/repository/transaction.go:34-73 | retrying with the record a successful create handed back reuses the id drawn the first time, so the retry is refused with `DuplicateId` and changes nothing |
| TransactionRepository.FailedCreateKeepsAssignedId | bank/internal/repository/transaction.go:35-44 | a create refused for its metadata still leaves the drawn id in the caller's record and changes no table |
| TransactionRepository.CreateThenFindByReferenceExact | bank/internal/repository/transaction.go:118-144 | when the read by reference was `Absent` before, then after a successful create with that reference and type it returns exactly the created row |
| TransactionRepository.DuplicateCaptureAccepted | bank/internal/repository/transaction.go:48-53 | the store accepts two captures of the same authorization: uniqueness of (reference id, type) is not enforced |
| IdempotencyRepository.Get | bank/internal/repository/idempotency.go:32-56 | `Absent` (not an error) exactly when the (key, path) pair is not cached; otherwise returns the cached row for that pair |
| IdempotencyRepository.Store | bank/internal/repository/idempotency.go:59-79 | always succeeds; a pair already cached leaves the whole state unchanged; a new pair gets a row with the given status and body, and a nil (NULL) creation time becomes `now`; existing rows are never changed |
| IdempotencyRepository.DeleteOlderThan | bank/internal/repository/idempotency.go:83-100 | keeps exactly the rows with `created_at >= before`, unchanged, and reports how many rows went, which is the number created strictly before the cutoff |
| IdempotencyRepository.StorePreservesWellFormed | bank/internal/repository/idempotency.go:60-63 | an insert keeps the cache keyed by (key, path) |
| IdempotencyRepository.DeleteOlderThanPreservesWellFormed | bank/internal/repository/idempotency.go:84-87 | a purge keeps the cache keyed by (key, path) |
| IdempotencyRepository.StoreThenGet | bank/internal/repository/idempotency.go:60-63 | after storing a new pair, its read returns the stored status code and body |
| IdempotencyRepository.StoreKeepsFirst | bank/internal/repository/idempotency.go:63 | a second store for the same pair succeeds without changing anything, and the read still returns the first payload |
| IdempotencyRepository.StoreLeavesOtherPairs | bank/internal/repository/idempotency.go:36-37 | the identity is the pair: a store leaves every other pair's read unchanged, including the same key under another path |
| IdempotencyRepository.StoreAllFirstWins | bank/internal/repository/idempotency.go:60-63 | after any sequence of stores, a pair that was already cached keeps its row; otherwise the read returns the row of the first call that stored under the pair, with that call's time as the default creation time, and the read is `Absent` if no call used the pair |
| IdempotencyRepository.DeleteOlderThanIdempotent | bank/internal/repository/idempotency.go:84-86 | a second purge with the same cutoff removes zero rows and changes nothing |
| IdempotencyRepository.DeleteOlderThanCompose | bank/internal/repository/idempotency.go:84-86 | purging at two cutoffs in turn leaves the same cache as one purge at the later cutoff |
| IdempotencyRepository.StoredRowSurvivesPurge | bank/internal/repository/idempotency.go:62-86 | a row whose creation time is at or after the cutoff, including one stamped by the `now` default, survives the purge |
| History.RunPreservesWellFormed | bank/internal/repository/transaction.go:34-53 | every sequence of writes keeps each table keyed by its rows' identity and keeps the nil id out of the payment records |
| History.RunKeepsAccounts | bank/internal/repository/account.go:133-139 | no sequence of writes adds or removes an account |
| History.RunKeepsPaymentRecords | bank/internal/repository/transaction.go:161-165 | across any sequence of writes a payment record is never deleted, and every field except its status keeps its value |
| History.RunKeepsCachedResponse | bank/internal/repository/idempotency.go:60-63 | once cached, a response is what every later read of its pair returns, across any writes, as long as no purge cutoff lies after its creation time |
| History.RunNeverResurrectsAfterPurge | bank/internal/repository/idempotency.go:84-86 | a pair missing from the cache stays absent through any sequence of writes unless one of them stores under that pair |

## Left out

- Row locking (`FOR UPDATE`), concurrent interleavings and multi-statement
  atomicity. The model is sequential, so the locking read equals the plain
  read.
- The execution context, connection pool, `Commit` and `Rollback`
  (bank/internal/db/connection.go). They wrap a database driver whose
  behaviour is not part of this model.
- The server process (bank/cmd/bank/main.go): configuration, logging, HTTP
  handlers and shutdown. Its startup purge issues the same DELETE that
  `IdempotencyRepository.DeleteOlderThan` models, with cutoff `now - 24h`.
- Transport and storage errors, errors from `RowsAffected`, and the text of
  error messages. Every statement is assumed to reach the database.
- AccountRepository.AdjustBalances: 64-bit overflow is not modelled.
  Balances and deltas are unbounded integers, so the database's
  out-of-range error on a `bigint` overflow is not modelled.
- TransactionRepository.Create: metadata is an opaque mapping.
  - A value the JSON encoder would reject is the `Unencodable` variant.
  - The stored blob is the encodable mapping itself, so decoding on read
    never fails.
  - JSON's conversion of integers to floating point on the way back is not
    modelled.
- TransactionRepository.Create: the table constraints are not visible.
  Only the primary key on `id` is modelled, and it refuses a duplicate id.
  No constraint on (reference id, type) is assumed.
- TransactionRepository.CreateThenFindById: `Time` is the database's
  timestamp, counted in microseconds. A Go time with nanoseconds is rounded
  to the microsecond on insert and reads back rounded. The lemma, and
  `IdempotencyRepository.StoreThenGet` likewise, promises exact read-back
  only of the stored microsecond value. The rounding itself is not modelled.
- The creation time a caller supplies is an `Option<Time>`. `None` is a
  nil creation time, sent as SQL NULL, and only then does the `COALESCE`
  default to `NOW()` apply. A zero Go `time.Time` is not NULL: it is
  `Some` of the time 0001-01-01 00:00:00 UTC, and it is stored as that
  time. The Go record types are not part of this model.
- When several rows match a single-row query, SQL leaves open which one is
  returned, and two queries need not pick the same row. The model makes the
  choice deterministic: it returns the matching row with the least id. The
  contracts of the reads by account number and by reference promise only
  "some matching row". The one contract that relies on determinism is
  `AccountRepository.FindByAccountNumberForUpdate`'s equality with the plain
  read. When account numbers repeat, that equality holds only because of
  the model's fixed choice.
- The status and type enumerations are the intended lifecycle states
  (pending, authorized, captured, voided, refunded). The Go enumerations
  are not part of this model.

=== FILE: account.dfy ===
/** The account ledger: reads by id and by account number, and the
    delta-based balance adjustment. Accounts are seeded out of band; this
    layer never inserts or deletes one. */
module AccountRepository {
  import opened Models
  import opened Database
  import Choice

  /** Reads the account with the given id; a miss is the `NotFound` error. */
  function FindById(db: Db, id: Uuid): (r: Result<Account>)
    ensures r.Ok? || r.NotFound?
    ensures r.Ok? <==> id in db.accounts
    ensures r.Ok? ==> r.value in db.accounts.Values
    ensures r.Ok? && WellFormed(db) ==> r.value.id == id
  {
    if id in db.accounts then Ok(db.accounts[id]) else NotFound
  }

  /** The ids of the accounts carrying the given number. */
  function NumberMatches(db: Db, accountNumber: string): set<Uuid> {
    set id | id in db.accounts && db.accounts[id].accountNumber == accountNumber
  }

  lemma NoNumberMatch(db: Db, accountNumber: string)
    requires NumberMatches(db, accountNumber) == {}
    ensures forall id :: id in db.accounts ==> db.accounts[id].accountNumber != accountNumber
  {
    forall id | id in db.accounts ensures db.accounts[id].accountNumber != accountNumber {
      assert id !in NumberMatches(db, accountNumber);
    }
  }

  /** Reads an account with the given number. The number is not assumed to
      be unique: when several accounts carry it, one of them is returned. */
  function FindByAccountNumber(db: Db, accountNumber: string): (r: Result<Account>)
    ensures r.Ok? || r.NotFound?
    ensures r.NotFound? <==>
      forall id :: id in db.accounts ==> db.accounts[id].accountNumber != accountNumber
    ensures r.Ok? ==> r.value.accountNumber == accountNumber && r.value in db.accounts.Values
  {
    var ids := NumberMatches(db, accountNumber);
    if ids == {} then
      NoNumberMatch(db, accountNumber);
      NotFound
    else
      var id := Choice.Least(ids);
      Ok(db.accounts[id])
  }

  /** The locking read. Without concurrency the row lock has no effect, so
      this is the plain read by account number. */
  function FindByAccountNumberForUpdate(db: Db, accountNumber: string): (r: Result<Account>)
    ensures r == FindByAccountNumber(db, accountNumber)
    ensures r.NotFound? <==>
      forall id :: id in db.accounts ==> db.accounts[id].accountNumber != accountNumber
    ensures r.Ok? ==> r.value.accountNumber == accountNumber && r.value in db.accounts.Values
  {
    FindByAccountNumber(db, accountNumber)
  }

  /** True when no two accounts share a number. */
  predicate UniqueAccountNumbers(db: Db) {
    forall i, j :: i in db.accounts && j in db.accounts && i != j ==>
      db.accounts[i].accountNumber != db.accounts[j].accountNumber
  }

  /** With unique account numbers the read by number is determined: it
      returns exactly the account that carries the number. */
  lemma FindByAccountNumberUnique(db: Db, id: Uuid)
    requires UniqueAccountNumbers(db)
    requires id in db.accounts
    ensures FindByAccountNumber(db, db.accounts[id].accountNumber) == Ok(db.accounts[id])
  {
    var n := db.accounts[id].accountNumber;
    assert NumberMatches(db, n) == {id};
  }

  /** Adds the deltas to both balances of one account in a single update and
      stamps it with `now`; a missing id is the `NotFound` error. */
  function AdjustBalances(db: Db, id: Uuid, balanceDelta: int, availableDelta: int, now: Time)
    : (r: Reply<()>)
    ensures r.result.Ok? || r.result.NotFound?
    ensures r.result.Ok? <==> id in db.accounts
    ensures id !in db.accounts ==> r.db == db
    ensures r.db.transactions == db.transactions && r.db.idempotency == db.idempotency
    ensures r.db.accounts.Keys == db.accounts.Keys
    ensures forall other :: other in db.accounts && other != id ==>
      r.db.accounts[other] == db.accounts[other]
    ensures id in db.accounts ==>
      var before, after := db.accounts[id], r.db.accounts[id];
      && after.balanceCents == before.balanceCents + balanceDelta
      && after.availableBalanceCents == before.availableBalanceCents + availableDelta
      && after.updatedAt == now
      && after.id == before.id
      && after.accountNumber == before.accountNumber
      && after.cvv == before.cvv
      && after.expiryMonth == before.expiryMonth
      && after.expiryYear == before.expiryYear
      && after.createdAt == before.createdAt
  {
    if id !in db.accounts then Reply(NotFound, db)
    else
      var a := db.accounts[id];
      var a' := a.(balanceCents := a.balanceCents + balanceDelta,
                   availableBalanceCents := a.availableBalanceCents + availableDelta,
                   updatedAt := now);
      Reply(Ok(()), db.(accounts := db.accounts[id := a']))
  }

  /** An adjustment keeps the tables keyed by identity. */
  lemma AdjustBalancesPreservesWellFormed(db: Db, id: Uuid, b: int, a: int, now: Time)
    requires WellFormed(db)
    ensures WellFormed(AdjustBalances(db, id, b, a, now).db)
  {
  }

  /** A zero adjustment of an existing account succeeds, which tells it
      apart from a missing id, and leaves both balances as they were. */
  lemma ZeroAdjustmentSucceeds(db: Db, id: Uuid, now: Time)
    requires id in db.accounts
    ensures AdjustBalances(db, id, 0, 0, now).result == Ok(())
    ensures AdjustBalances(db, id, 0, 0, now).db.accounts[id]
         == db.accounts[id].(updatedAt := now)
  {
  }

  /** Two successive adjustments equal one adjustment by the summed deltas:
      the second starts from the first's result, so no update is lost. */
  lemma AdjustBalancesCompose(db: Db, id: Uuid, b1: int, a1: int, t1: Time,
                              b2: int, a2: int, t2: Time)
    ensures var first := AdjustBalances(db, id, b1, a1, t1);
            AdjustBalances(first.db, id, b2, a2, t2) == AdjustBalances(db, id, b1 + b2, a1 + a2, t2)
  {
  }

  /** One adjustment call: its two deltas and the clock reading it is
      made at. */
  datatype Delta = Delta(balance: int, available: int, at: Time)

  function SumBalance(ds: seq<Delta>): int {
    if ds == [] then 0 else ds[0].balance + SumBalance(ds[1..])
  }

  function SumAvailable(ds: seq<Delta>): int {
    if ds == [] then 0 else ds[0].available + SumAvailable(ds[1..])
  }

  /** Applies the adjustments one after the other, each at its own time. */
  function AdjustAll(db: Db, id: Uuid, ds: seq<Delta>): Db
    decreases |ds|
  {
    if ds == [] then db
    else AdjustAll(AdjustBalances(db, id, ds[0].balance, ds[0].available, ds[0].at).db, id, ds[1..])
  }

  /** After any sequence of adjustments of one account, each balance is the
      initial one plus the sum of its deltas, `updated_at` is the time of the
      last call, and nothing else has changed: not the account's other
      fields, not the other accounts, not the other tables. */
  lemma {:induction false} AdjustAllSums(db: Db, id: Uuid, ds: seq<Delta>)
    requires id in db.accounts
    ensures var after := AdjustAll(db, id, ds);
      && after.accounts.Keys == db.accounts.Keys
      && after.accounts[id] == db.accounts[id].(
           balanceCents := db.accounts[id].balanceCents + SumBalance(ds),
           availableBalanceCents := db.accounts[id].availableBalanceCents + SumAvailable(ds),
           updatedAt := after.accounts[id].updatedAt)
      && (ds != [] ==> after.accounts[id].updatedAt == ds[|ds| - 1].at)
      && (ds == [] ==> after.accounts[id].updatedAt == db.accounts[id].updatedAt)
      && (forall other :: other in db.accounts && other != id ==>
            after.accounts[other] == db.accounts[other])
      && after.transactions == db.transactions
      && after.idempotency == db.idempotency
    decreases |ds|
  {
    if ds != [] {
      var next := AdjustBalances(db, id, ds[0].balance, ds[0].available, ds[0].at).db;
      AdjustAllSums(next, id, ds[1..]);
      if |ds| > 1 {
        assert ds[1..][|ds[1..]| - 1] == ds[|ds| - 1];
      }
    }
  }

  /** Adjusting an id that is not in the table changes nothing, however
      many times it is tried. */
  lemma {:induction false} AdjustAllMissing(db: Db, id: Uuid, ds: seq<Delta>)
    requires id !in db.accounts
    ensures AdjustAll(db, id, ds) == db
    decreases |ds|
  {
    if ds != [] {
      AdjustAllMissing(db, id, ds[1..]);
    }
  }

  /** A read after an adjustment sees the adjusted balances: the next
      caller starts from the updated row. */
  lemma AdjustThenFindById(db: Db, id: Uuid, balanceDelta: int, availableDelta: int, now: Time)
    requires id in db.accounts
    ensures var found := FindById(AdjustBalances(db, id, balanceDelta, availableDelta, now).db, id);
      && found.Ok?
      && found.value.balanceCents == db.accounts[id].balanceCents + balanceDelta
      && found.value.availableBalanceCents == db.accounts[id].availableBalanceCents + availableDelta
      && found.value.accountNumber == db.accounts[id].accountNumber
  {
  }

  /** Holding every cent of an account: from a balance of 1000 cents, an
      adjustment by (-1000, -1000) leaves both balances at zero. */
  lemma HoldAllFunds(db: Db, id: Uuid, now: Time)
    requires id in db.accounts
    requires db.accounts[id].balanceCents == 1000 && db.accounts[id].availableBalanceCents == 1000
    ensures var r := AdjustBalances(db, id, -1000, -1000, now);
      r.result == Ok(()) && r.db.accounts[id].balanceCents == 0
      && r.db.accounts[id].availableBalanceCents == 0
  {
  }

  /** The ledger does not keep the available balance at or below the
      balance: a single adjustment can push it above. */
  lemma AvailableMayExceedBalance()
    ensures var a := Account(1, "4111", "123", 12, 2030, 100, 100, 0, 0);
            var db := Db(map[1 := a], map[], map[]);
            var after := AdjustBalances(db, 1, 0, 50, 1).db.accounts[1];
            a.availableBalanceCents <= a.balanceCents
            && after.availableBalanceCents > after.balanceCents
  {
  }
}

=== FILE: choice.dfy ===
/** The row a single-row query returns when several rows match. SQL leaves
    the order unspecified; the model fixes it as ascending id. Contracts
    outside this module rely only on the choice being the same for the same
    state, never on it being the least id. */
module Choice {
  import opened Models

  /** Every non-empty finite set of ids has a least element; this one. */
  lemma {:induction false} LeastWitness(s: set<Uuid>) returns (m: Uuid)
    requires s != {}
    ensures m in s
    ensures forall y :: y in s ==> m <= y
    decreases |s|
  {
    var x :| x in s;
    var rest := s - {x};
    if rest == {} {
      m := x;
      forall y | y in s ensures m <= y {
        assert y !in rest;
      }
    } else {
      var least := LeastWitness(rest);
      m := if x <= least then x else least;
      forall y | y in s ensures m <= y {
        if y != x { assert y in rest; }
      }
    }
  }

  lemma LeastExists(s: set<Uuid>)
    requires s != {}
    ensures exists m :: m in s && forall y :: y in s ==> m <= y
  {
    var m := LeastWitness(s);
  }

  /** The least id of a non-empty set. */
  function Least(s: set<Uuid>): (m: Uuid)
    requires s != {}
    ensures m in s
    ensures forall y :: y in s ==> m <= y
  {
    LeastExists(s);
    var m :| m in s && forall y :: y in s ==> m <= y;
    m
  }
}

=== FILE: database.dfy ===
/** The database as one immutable value holding the three tables. */
module Database {
  import opened Models

  datatype Db = Db(
    accounts: map<Uuid, Account>,
    transactions: map<Uuid, Transaction>,
    idempotency: map<IdemKey, IdempotencyRecord>)

  /** What a write returns: its outcome and the state after it. */
  datatype Reply<+T> = Reply(result: Result<T>, db: Db)

  /** Each table is keyed by its rows' own identity, and no stored
      transaction carries the nil id. */
  predicate WellFormed(db: Db) {
    && (forall id :: id in db.accounts ==> db.accounts[id].id == id)
    && (forall id :: id in db.transactions ==> db.transactions[id].id == id)
    && Nil !in db.transactions
    && (forall k :: k in db.idempotency ==>
          IdemKey(db.idempotency[k].key, db.idempotency[k].requestPath) == k)
  }
}

=== FILE: history.dfy ===
/** Sequences of repository calls against one database, and the invariants
    every such sequence keeps. */
module History {
  import opened Models
  import opened Database
  import AccountRepository
  import TransactionRepository
  import IdempotencyRepository

  /** One write through the repositories, with the clock reading and the
      random id it uses passed in. */
  datatype Call =
    | AdjustBalancesCall(accountId: Uuid, balanceDelta: int, availableDelta: int, now: Time)
    | CreateCall(draft: TransactionDraft, newId: Uuid, now: Time)
    | UpdateStatusCall(id: Uuid, status: TransactionStatus)
    | StoreCall(idem: IdempotencyDraft, now: Time)
    | DeleteOlderThanCall(before: Time)

  /** A random UUID is never the nil one. */
  predicate ValidCall(c: Call) {
    c.CreateCall? ==> c.newId != Nil
  }

  predicate ValidCalls(cs: seq<Call>) {
    forall i :: 0 <= i < |cs| ==> ValidCall(cs[i])
  }

  function Apply(db: Db, c: Call): Db
    requires ValidCall(c)
  {
    match c
    case AdjustBalancesCall(id, b, a, now) => AccountRepository.AdjustBalances(db, id, b, a, now).db
    case CreateCall(draft, newId, now) => TransactionRepository.Create(db, draft, newId, now).db
    case UpdateStatusCall(id, status) => TransactionRepository.UpdateStatus(db, id, status).db
    case StoreCall(draft, now) => IdempotencyRepository.Store(db, draft, now).db
    case DeleteOlderThanCall(before) => IdempotencyRepository.DeleteOlderThan(db, before).db
  }

  function Run(db: Db, cs: seq<Call>): Db
    requires ValidCalls(cs)
    decreases |cs|
  {
    if cs == [] then db else Run(Apply(db, cs[0]), cs[1..])
  }

  lemma ApplyPreservesWellFormed(db: Db, c: Call)
    requires WellFormed(db) && ValidCall(c)
    ensures WellFormed(Apply(db, c))
  {
    match c
    case AdjustBalancesCall(id, b, a, now) =>
      AccountRepository.AdjustBalancesPreservesWellFormed(db, id, b, a, now);
    case CreateCall(draft, newId, now) =>
      TransactionRepository.CreatePreservesWellFormed(db, draft, newId, now);
    case UpdateStatusCall(id, status) =>
      TransactionRepository.UpdateStatusPreservesWellFormed(db, id, status);
    case StoreCall(draft, now) =>
      IdempotencyRepository.StorePreservesWellFormed(db, draft, now);
    case DeleteOlderThanCall(before) =>
      IdempotencyRepository.DeleteOlderThanPreservesWellFormed(db, before);
  }

  /** Every sequence of calls keeps each table keyed by its rows' identity
      and keeps the nil id out of the payment records. */
  lemma {:induction false} RunPreservesWellFormed(db: Db, cs: seq<Call>)
    requires WellFormed(db) && ValidCalls(cs)
    ensures WellFormed(Run(db, cs))
    decreases |cs|
  {
    if cs != [] {
      ApplyPreservesWellFormed(db, cs[0]);
      RunPreservesWellFormed(Apply(db, cs[0]), cs[1..]);
    }
  }

  /** The set of accounts never changes: this layer neither opens nor closes
      one. */
  lemma {:induction false} RunKeepsAccounts(db: Db, cs: seq<Call>)
    requires ValidCalls(cs)
    ensures Run(db, cs).accounts.Keys == db.accounts.Keys
    decreases |cs|
  {
    if cs != [] {
      RunKeepsAccounts(Apply(db, cs[0]), cs[1..]);
    }
  }

  /** A later state of a payment record: the same record, at most with
      another status. */
  predicate SameRecord(before: Transaction, after: Transaction) {
    after == before.(status := after.status)
  }

  /** Payment records form an audit trail: once created a record is never
      deleted, and every field but its status stays as it was. */
  lemma {:induction false} RunKeepsPaymentRecords(db: Db, cs: seq<Call>)
    requires ValidCalls(cs)
    ensures var after := Run(db, cs);
      && db.transactions.Keys <= after.transactions.Keys
      && forall id :: id in db.transactions ==>
           SameRecord(db.transactions[id], after.transactions[id])
    decreases |cs|
  {
    if cs != [] {
      var next := Apply(db, cs[0]);
      assert db.transactions.Keys <= next.transactions.Keys;
      assert forall id :: id in db.transactions ==>
        SameRecord(db.transactions[id], next.transactions[id]);
      RunKeepsPaymentRecords(next, cs[1..]);
    }
  }

  /** No purge in the sequence reaches back to time `t`. */
  predicate PurgesSpare(cs: seq<Call>, t: Time) {
    forall i :: 0 <= i < |cs| && cs[i].DeleteOlderThanCall? ==> cs[i].before <= t
  }

  /** A cached response is never replaced: as long as no purge cutoff lies
      after its creation time, every later read of its pair returns the
      original row, whatever other stores, updates and adjustments run. */
  lemma {:induction false} RunKeepsCachedResponse(db: Db, cs: seq<Call>, k: IdemKey)
    requires ValidCalls(cs)
    requires k in db.idempotency
    requires PurgesSpare(cs, db.idempotency[k].createdAt)
    ensures IdempotencyRepository.Get(Run(db, cs), k.key, k.requestPath) == Ok(db.idempotency[k])
    decreases |cs|
  {
    if cs != [] {
      var next := Apply(db, cs[0]);
      assert k in next.idempotency && next.idempotency[k] == db.idempotency[k];
      assert forall i :: 0 <= i < |cs[1..]| ==> cs[1..][i] == cs[i + 1];
      RunKeepsCachedResponse(next, cs[1..], k);
    }
  }

  /** Once a pair is gone, only a store can bring it back. */
  predicate StoresUnder(cs: seq<Call>, k: IdemKey) {
    exists i :: 0 <= i < |cs| && cs[i].StoreCall? && IdempotencyRepository.KeyOf(cs[i].idem) == k
  }

  lemma {:induction false} RunNeverResurrectsAfterPurge(db: Db, cs: seq<Call>, k: IdemKey)
    requires ValidCalls(cs)
    requires k !in db.idempotency
    ensures IdempotencyRepository.Get(Run(db, cs), k.key, k.requestPath) == Absent
      || StoresUnder(cs, k)
    decreases |cs|
  {
    if cs != [] {
      var next := Apply(db, cs[0]);
      if k in next.idempotency {
        assert cs[0].StoreCall? && IdempotencyRepository.KeyOf(cs[0].idem) == k;
      } else {
        RunNeverResurrectsAfterPurge(next, cs[1..], k);
        if StoresUnder(cs[1..], k) {
          var i :| 0 <= i < |cs[1..]| && cs[1..][i].StoreCall?
                   && IdempotencyRepository.KeyOf(cs[1..][i].idem) == k;
          assert cs[i + 1] == cs[1..][i];
        }
      }
    }
  }
}

=== FILE: idempotency.dfy ===
/** The idempotency store: cached responses keyed by the pair (key, request
    path), inserted first-writer-wins and purged by age. */
module IdempotencyRepository {
  import opened Models
  import opened Database

  function KeyOf(draft: IdempotencyDraft): IdemKey {
    IdemKey(draft.key, draft.requestPath)
  }

  /** Reads the cached response for (key, path). A miss is `Absent`, the
      normal sign of a request seen for the first time. */
  function Get(db: Db, key: string, requestPath: string): (r: Result<IdempotencyRecord>)
    ensures r.Ok? || r.Absent?
    ensures r.Absent? <==> IdemKey(key, requestPath) !in db.idempotency
    ensures r.Ok? ==> r.value in db.idempotency.Values
    ensures r.Ok? && WellFormed(db) ==> r.value.key == key && r.value.requestPath == requestPath
  {
    var k := IdemKey(key, requestPath);
    if k in db.idempotency then Ok(db.idempotency[k]) else Absent
  }

  /** The row a draft becomes; a missing creation time becomes `now`. */
  function RecordOf(draft: IdempotencyDraft, now: Time): IdempotencyRecord {
    IdempotencyRecord(draft.key, draft.requestPath, draft.responseStatus, draft.responseBody,
                      draft.createdAt.GetOr(now))
  }

  /** Caches a response. When a row for the same (key, path) already exists
      the insert does nothing, still without error: the first writer wins. */
  function Store(db: Db, draft: IdempotencyDraft, now: Time): (r: Reply<()>)
    ensures r.result == Ok(())
    ensures r.db.accounts == db.accounts && r.db.transactions == db.transactions
    ensures KeyOf(draft) in db.idempotency ==> r.db == db
    ensures r.db.idempotency.Keys == db.idempotency.Keys + {KeyOf(draft)}
    ensures forall k :: k in db.idempotency ==> r.db.idempotency[k] == db.idempotency[k]
    ensures KeyOf(draft) !in db.idempotency ==>
      var row := r.db.idempotency[KeyOf(draft)];
      && row.key == draft.key && row.requestPath == draft.requestPath
      && row.responseStatus == draft.responseStatus && row.responseBody == draft.responseBody
      && (draft.createdAt.Some? ==> row.createdAt == draft.createdAt.value)
      && (draft.createdAt.None? ==> row.createdAt == now)
  {
    var k := KeyOf(draft);
    if k in db.idempotency then Reply(Ok(()), db)
    else Reply(Ok(()), db.(idempotency := db.idempotency[k := RecordOf(draft, now)]))
  }

  /** The keys of the rows created strictly before `before`. */
  function Expired(m: map<IdemKey, IdempotencyRecord>, before: Time): (s: set<IdemKey>)
    ensures s <= m.Keys
  {
    set k | k in m && m[k].createdAt < before
  }

  lemma RemovedCount(m: map<IdemKey, IdempotencyRecord>, s: set<IdemKey>)
    requires s <= m.Keys
    ensures |(m - s).Keys| == |m.Keys| - |s|
  {
    assert (m - s).Keys == m.Keys - s;
    assert m.Keys == (m.Keys - s) + s;
  }

  /** Deletes every row created strictly before `before` and answers how
      many went. A row created exactly at `before` stays. */
  function DeleteOlderThan(db: Db, before: Time): (r: Reply<nat>)
    ensures r.result.Ok?
    ensures r.db.accounts == db.accounts && r.db.transactions == db.transactions
    ensures forall k :: k in r.db.idempotency <==>
      k in db.idempotency && db.idempotency[k].createdAt >= before
    ensures forall k :: k in r.db.idempotency ==> r.db.idempotency[k] == db.idempotency[k]
    ensures r.result.value == |db.idempotency| - |r.db.idempotency|
    ensures r.result.value == |Expired(db.idempotency, before)|
  {
    var gone := Expired(db.idempotency, before);
    RemovedCount(db.idempotency, gone);
    Reply(Ok(|gone|), db.(idempotency := db.idempotency - gone))
  }

  lemma StorePreservesWellFormed(db: Db, draft: IdempotencyDraft, now: Time)
    requires WellFormed(db)
    ensures WellFormed(Store(db, draft, now).db)
  {
  }

  lemma DeleteOlderThanPreservesWellFormed(db: Db, before: Time)
    requires WellFormed(db)
    ensures WellFormed(DeleteOlderThan(db, before).db)
  {
  }

  /** Storing a new (key, path) makes the next read return the stored
      status code and body. */
  lemma StoreThenGet(db: Db, draft: IdempotencyDraft, now: Time)
    requires KeyOf(draft) !in db.idempotency
    ensures Get(Store(db, draft, now).db, draft.key, draft.requestPath) == Ok(RecordOf(draft, now))
  {
  }

  /** A second store for a pair already present succeeds and the read still
      returns the first payload. */
  lemma StoreKeepsFirst(db: Db, first: IdempotencyDraft, second: IdempotencyDraft, t1: Time, t2: Time)
    requires KeyOf(first) !in db.idempotency
    requires KeyOf(second) == KeyOf(first)
    ensures var once := Store(db, first, t1).db;
            var twice := Store(once, second, t2);
            twice.result == Ok(()) && twice.db == once
            && Get(twice.db, first.key, first.requestPath) == Ok(RecordOf(first, t1))
  {
  }

  /** The identity is the pair: storing under one (key, path) leaves every
      other pair, the same key under another path included, as it was. */
  lemma StoreLeavesOtherPairs(db: Db, draft: IdempotencyDraft, now: Time, key: string, requestPath: string)
    requires IdemKey(key, requestPath) != KeyOf(draft)
    ensures Get(Store(db, draft, now).db, key, requestPath) == Get(db, key, requestPath)
  {
  }

  /** One store call: the draft and the clock reading it is made at. */
  datatype StoreRequest = StoreRequest(draft: IdempotencyDraft, at: Time)

  /** Applies the store calls one after the other. */
  function StoreAll(db: Db, calls: seq<StoreRequest>): Db
    decreases |calls|
  {
    if calls == [] then db else StoreAll(Store(db, calls[0].draft, calls[0].at).db, calls[1..])
  }

  /** The first call of the sequence that stores under `k`, if any. */
  function FirstFor(calls: seq<StoreRequest>, k: IdemKey): Option<StoreRequest> {
    if calls == [] then None
    else if KeyOf(calls[0].draft) == k then Some(calls[0])
    else FirstFor(calls[1..], k)
  }

  /** First writer wins across any sequence of stores: a pair already cached
      keeps its row; otherwise every later read sees the row of the first
      call that stored under the pair, stamped with that call's time when
      its draft carries none. */
  lemma {:induction false} StoreAllFirstWins(db: Db, calls: seq<StoreRequest>,
                                             key: string, requestPath: string)
    ensures var k := IdemKey(key, requestPath);
      var got := Get(StoreAll(db, calls), key, requestPath);
      && (k in db.idempotency ==> got == Ok(db.idempotency[k]))
      && (k !in db.idempotency && FirstFor(calls, k).Some? ==>
            got == Ok(RecordOf(FirstFor(calls, k).value.draft, FirstFor(calls, k).value.at)))
      && (k !in db.idempotency && FirstFor(calls, k).None? ==> got == Absent)
    decreases |calls|
  {
    if calls != [] {
      StoreAllFirstWins(Store(db, calls[0].draft, calls[0].at).db, calls[1..], key, requestPath);
    }
  }

  /** A second purge with the same cutoff removes nothing. */
  lemma DeleteOlderThanIdempotent(db: Db, before: Time)
    ensures var once := DeleteOlderThan(db, before).db;
            DeleteOlderThan(once, before) == Reply(Ok(0), once)
  {
    var once := DeleteOlderThan(db, before).db;
    assert Expired(once.idempotency, before) == {};
    assert once.idempotency - {} == once.idempotency;
  }

  /** Purging at one cutoff and then at another leaves the same table as
      purging once at the later of the two. */
  lemma DeleteOlderThanCompose(db: Db, b1: Time, b2: Time)
    ensures DeleteOlderThan(DeleteOlderThan(db, b1).db, b2).db
         == DeleteOlderThan(db, if b1 <= b2 then b2 else b1).db
  {
    var m := db.idempotency;
    var mid := m - Expired(m, b1);
    var twice := mid - Expired(mid, b2);
    var once := m - Expired(m, if b1 <= b2 then b2 else b1);
    assert twice == once;
  }

  /** A row stored with a creation time at or after the cutoff survives the
      purge. */
  lemma StoredRowSurvivesPurge(db: Db, draft: IdempotencyDraft, now: Time, before: Time)
    requires KeyOf(draft) !in db.idempotency
    requires draft.createdAt.GetOr(now) >= before
    ensures Get(DeleteOlderThan(Store(db, draft, now).db, before).db, draft.key, draft.requestPath)
         == Ok(RecordOf(draft, now))
  {
  }
}

=== FILE: models.dfy ===
/** Row types of the bank's three tables, and the tagged outcome every
    repository operation returns. */
module Models {

  /** A UUID, modelled as a natural number; 0 stands for the all-zero nil UUID. */
  type Uuid = nat

  const Nil: Uuid := 0

  /** A database timestamp, counted in microseconds. */
  type Time = int

  /** Why a write was refused. */
  datatype Fault =
    | DuplicateId        // the primary key is already taken
    | MetadataEncoding   // the metadata could not be encoded as JSON

  /** The outcome of a repository call. `Absent` is the expected "no row yet"
      answer of the lookups that treat a miss as normal; `NotFound` is the error
      of the lookups and updates that expect the row to exist. */
  datatype Result<+T> =
    | Ok(value: T)
    | Absent
    | NotFound
    | Failed(fault: Fault)

  /** A row of `accounts`. Balances are signed cents. */
  datatype Account = Account(
    id: Uuid,
    accountNumber: string,
    cvv: string,
    expiryMonth: int,
    expiryYear: int,
    balanceCents: int,
    availableBalanceCents: int,
    createdAt: Time,
    updatedAt: Time)

  datatype TransactionType = Authorization | Capture | Void | Refund

  datatype TransactionStatus = Pending | Authorized | Captured | Voided | Refunded

  /** A metadata value. `Unencodable` stands for any value the JSON encoder
      rejects. */
  datatype MetaValue = Text(s: string) | Number(n: int) | Flag(b: bool) | Unencodable

  type Metadata = map<string, MetaValue>

  /** True when the JSON encoder accepts every value of the mapping. */
  predicate Encodable(m: Metadata) {
    forall k :: k in m ==> m[k] != Unencodable
  }

  /** A row of `transactions`: one authorization, capture, void or refund. */
  datatype Transaction = Transaction(
    id: Uuid,
    accountId: Uuid,
    txType: TransactionType,
    amountCents: int,
    currency: string,
    referenceId: Option<Uuid>,
    status: TransactionStatus,
    expiresAt: Option<Time>,
    metadata: Option<Metadata>,
    createdAt: Time)

  /** What a caller hands to `Create`: the id may be nil and the creation time
      may be missing, in which case the store fills them in. */
  datatype TransactionDraft = TransactionDraft(
    id: Uuid,
    accountId: Uuid,
    txType: TransactionType,
    amountCents: int,
    currency: string,
    referenceId: Option<Uuid>,
    status: TransactionStatus,
    expiresAt: Option<Time>,
    metadata: Option<Metadata>,
    createdAt: Option<Time>)

  /** The composite identity of an idempotency row. */
  datatype IdemKey = IdemKey(key: string, requestPath: string)

  /** A row of `idempotency_keys`: the cached response of a mutating request. */
  datatype IdempotencyRecord = IdempotencyRecord(
    key: string,
    requestPath: string,
    responseStatus: int,
    responseBody: string,
    createdAt: Time)

  /** What a caller hands to `Store`; the creation time may be missing. */
  datatype IdempotencyDraft = IdempotencyDraft(
    key: string,
    requestPath: string,
    responseStatus: int,
    responseBody: string,
    createdAt: Option<Time>)

  datatype Option<+T> = None | Some(value: T) {
    function GetOr(default: T): T {
      match this
      case Some(v) => v
      case None => default
    }
  }
}

=== FILE: transaction.dfy ===
/** The payment-record store: one row per authorization, capture, void or
    refund, created once and then only ever changed in its status. */
module TransactionRepository {
  import opened Models
  import opened Database
  import Choice

  /** The id a draft is stored under: its own, or `newId` when it is nil. */
  function AssignedId(draft: TransactionDraft, newId: Uuid): (id: Uuid)
    requires newId != Nil
    ensures id != Nil
    ensures draft.id != Nil ==> id == draft.id
    ensures draft.id == Nil ==> id == newId
  {
    if draft.id == Nil then newId else draft.id
  }

  /** True when the draft's metadata, if any, can be encoded. */
  predicate MetadataEncodes(draft: TransactionDraft) {
    draft.metadata.None? || Encodable(draft.metadata.value)
  }

  /** The row an accepted draft becomes. */
  function RowOf(draft: TransactionDraft, id: Uuid, now: Time): Transaction {
    Transaction(id, draft.accountId, draft.txType, draft.amountCents, draft.currency,
                draft.referenceId, draft.status, draft.expiresAt, draft.metadata,
                draft.createdAt.GetOr(now))
  }

  /** What `Create` hands back: the caller's record as the call leaves it,
      the outcome, and the state after the call. */
  datatype Created = Created(record: TransactionDraft, result: Result<Uuid>, db: Db)

  /** Inserts a payment record. A nil id is replaced by `newId` (the random
      UUID the store draws), and that id is written into the caller's record
      before anything can fail, so the caller keeps it whatever the outcome.
      Metadata that cannot be encoded refuses the insert, and so does an id
      already in the table. On success the result is the id the record was
      stored under. */
  function Create(db: Db, draft: TransactionDraft, newId: Uuid, now: Time): (r: Created)
    requires newId != Nil
    ensures r.record == draft.(id := AssignedId(draft, newId))
    ensures r.result.Ok? || r.result.Failed?
    ensures r.result == Failed(MetadataEncoding) <==> !MetadataEncodes(draft)
    ensures r.result == Failed(DuplicateId) <==>
      MetadataEncodes(draft) && AssignedId(draft, newId) in db.transactions
    ensures r.result.Failed? ==> r.db == db
    ensures r.result.Ok? ==>
      && r.result.value != Nil
      && (draft.id != Nil ==> r.result.value == draft.id)
      && (draft.id == Nil ==> r.result.value == newId)
      && r.result.value !in db.transactions
      && r.db.transactions.Keys == db.transactions.Keys + {r.result.value}
      && (forall id :: id in db.transactions ==> r.db.transactions[id] == db.transactions[id])
    ensures r.db.accounts == db.accounts && r.db.idempotency == db.idempotency
  {
    var id := AssignedId(draft, newId);
    var record := draft.(id := id);
    if !MetadataEncodes(draft) then Created(record, Failed(MetadataEncoding), db)
    else if id in db.transactions then Created(record, Failed(DuplicateId), db)
    else Created(record, Ok(id), db.(transactions := db.transactions[id := RowOf(draft, id, now)]))
  }

  /** Reads the record with the given id; a miss is the `NotFound` error,
      never `Absent`. */
  function FindById(db: Db, id: Uuid): (r: Result<Transaction>)
    ensures r.Ok? || r.NotFound?
    ensures r.NotFound? <==> id !in db.transactions
    ensures r.Ok? ==> r.value in db.transactions.Values
    ensures r.Ok? && WellFormed(db) ==> r.value.id == id
  {
    if id in db.transactions then Ok(db.transactions[id]) else NotFound
  }

  /** True when the record acts on `refId` and is of type `txType`. */
  predicate RefersTo(t: Transaction, refId: Uuid, txType: TransactionType) {
    t.referenceId == Some(refId) && t.txType == txType
  }

  function ReferenceMatches(db: Db, refId: Uuid, txType: TransactionType): set<Uuid> {
    set id | id in db.transactions && RefersTo(db.transactions[id], refId, txType)
  }

  lemma NoReferenceMatch(db: Db, refId: Uuid, txType: TransactionType)
    requires ReferenceMatches(db, refId, txType) == {}
    ensures forall id :: id in db.transactions ==> !RefersTo(db.transactions[id], refId, txType)
  {
    forall id | id in db.transactions ensures !RefersTo(db.transactions[id], refId, txType) {
      assert id !in ReferenceMatches(db, refId, txType);
    }
  }

  /** Reads a record of type `txType` that acts on `refId`. No such record
      is the expected `Absent` answer, not an error; when several match, one
      of them is returned. */
  function FindByReferenceId(db: Db, refId: Uuid, txType: TransactionType): (r: Result<Transaction>)
    ensures r.Ok? || r.Absent?
    ensures r.Absent? <==>
      forall id :: id in db.transactions ==> !RefersTo(db.transactions[id], refId, txType)
    ensures r.Ok? ==> RefersTo(r.value, refId, txType) && r.value in db.transactions.Values
  {
    var ids := ReferenceMatches(db, refId, txType);
    if ids == {} then
      NoReferenceMatch(db, refId, txType);
      Absent
    else
      Ok(db.transactions[Choice.Least(ids)])
  }

  /** At most one record of each type acts on each reference. The store does
      not maintain this; it is what the callers hope for. */
  predicate UniqueReferences(db: Db) {
    forall i, j :: i in db.transactions && j in db.transactions && i != j ==>
      var a, b := db.transactions[i], db.transactions[j];
      !(a.referenceId.Some? && a.referenceId == b.referenceId && a.txType == b.txType)
  }

  /** Where references are unique the read by reference is determined. */
  lemma FindByReferenceIdUnique(db: Db, id: Uuid, refId: Uuid)
    requires UniqueReferences(db)
    requires id in db.transactions && db.transactions[id].referenceId == Some(refId)
    ensures FindByReferenceId(db, refId, db.transactions[id].txType) == Ok(db.transactions[id])
  {
    assert ReferenceMatches(db, refId, db.transactions[id].txType) == {id};
  }

  /** Overwrites the status of a record, whatever it was; a missing id is
      the `NotFound` error and changes nothing. */
  function UpdateStatus(db: Db, id: Uuid, status: TransactionStatus): (r: Reply<()>)
    ensures r.result.Ok? || r.result.NotFound?
    ensures r.result.Ok? <==> id in db.transactions
    ensures id !in db.transactions ==> r.db == db
    ensures r.db.accounts == db.accounts && r.db.idempotency == db.idempotency
    ensures r.db.transactions.Keys == db.transactions.Keys
    ensures forall other :: other in db.transactions && other != id ==>
      r.db.transactions[other] == db.transactions[other]
    ensures id in db.transactions ==>
      r.db.transactions[id].status == status
      && r.db.transactions[id] == db.transactions[id].(status := r.db.transactions[id].status)
  {
    if id !in db.transactions then Reply(NotFound, db)
    else Reply(Ok(()), db.(transactions := db.transactions[id := db.transactions[id].(status := status)]))
  }

  lemma CreatePreservesWellFormed(db: Db, draft: TransactionDraft, newId: Uuid, now: Time)
    requires WellFormed(db) && newId != Nil
    ensures WellFormed(Create(db, draft, newId, now).db)
  {
  }

  lemma UpdateStatusPreservesWellFormed(db: Db, id: Uuid, status: TransactionStatus)
    requires WellFormed(db)
    ensures WellFormed(UpdateStatus(db, id, status).db)
  {
  }

  /** After a successful create, reading the returned id gives back every
      field of the draft; missing metadata reads back as missing, and a
      missing creation time reads back as `now`. */
  lemma CreateThenFindById(db: Db, draft: TransactionDraft, newId: Uuid, now: Time)
    requires newId != Nil
    requires Create(db, draft, newId, now).result.Ok?
    ensures var r := Create(db, draft, newId, now);
      var found := FindById(r.db, r.result.value);
      && found.Ok?
      && found.value.id == r.result.value
      && found.value.accountId == draft.accountId
      && found.value.txType == draft.txType
      && found.value.amountCents == draft.amountCents
      && found.value.currency == draft.currency
      && found.value.referenceId == draft.referenceId
      && found.value.status == draft.status
      && found.value.expiresAt == draft.expiresAt
      && found.value.metadata == draft.metadata
      && (draft.createdAt.Some? ==> found.value.createdAt == draft.createdAt.value)
      && (draft.createdAt.None? ==> found.value.createdAt == now)
  {
  }

  /** A create either succeeds or leaves the existing records alone: an
      existing id is never overwritten. */
  lemma CreateNeverOverwrites(db: Db, draft: TransactionDraft, newId: Uuid, now: Time, id: Uuid)
    requires newId != Nil
    requires id in db.transactions
    ensures FindById(Create(db, draft, newId, now).db, id) == FindById(db, id)
  {
  }

  /** A created record acting on `refId` makes the read by reference
      answer with a record, where before it may have been absent. */
  lemma CreateThenFindByReference(db: Db, draft: TransactionDraft, newId: Uuid, now: Time)
    requires newId != Nil
    requires draft.referenceId.Some?
    requires Create(db, draft, newId, now).result.Ok?
    ensures var after := Create(db, draft, newId, now).db;
      var found := FindByReferenceId(after, draft.referenceId.value, draft.txType);
      found.Ok? && found.value.referenceId == draft.referenceId && found.value.txType == draft.txType
  {
    var r := Create(db, draft, newId, now);
    var id := r.result.value;
    assert RefersTo(r.db.transactions[id], draft.referenceId.value, draft.txType);
  }

  /** When no record of the draft's type referred to its reference before,
      the read by reference after a successful create returns exactly the
      created row: it is then the only match. */
  lemma CreateThenFindByReferenceExact(db: Db, draft: TransactionDraft, newId: Uuid, now: Time)
    requires newId != Nil
    requires draft.referenceId.Some?
    requires FindByReferenceId(db, draft.referenceId.value, draft.txType).Absent?
    requires Create(db, draft, newId, now).result.Ok?
    ensures var r := Create(db, draft, newId, now);
      FindByReferenceId(r.db, draft.referenceId.value, draft.txType)
        == Ok(RowOf(draft, r.result.value, now))
  {
    var r := Create(db, draft, newId, now);
    var id := r.result.value;
    assert ReferenceMatches(r.db, draft.referenceId.value, draft.txType) == {id};
  }

  /** The next read after an update reports exactly the new status, and the
      rest of the record is untouched. */
  lemma UpdateStatusThenFindById(db: Db, id: Uuid, status: TransactionStatus)
    requires id in db.transactions
    ensures FindById(UpdateStatus(db, id, status).db, id) == Ok(db.transactions[id].(status := status))
  {
  }

  /** Repeating an update succeeds again and changes nothing more. */
  lemma UpdateStatusIdempotent(db: Db, id: Uuid, status: TransactionStatus)
    ensures var once := UpdateStatus(db, id, status);
            UpdateStatus(once.db, id, status) == once
  {
  }

  /** Of two updates of the same record, the later one decides the status. */
  lemma UpdateStatusLastWins(db: Db, id: Uuid, s1: TransactionStatus, s2: TransactionStatus)
    ensures UpdateStatus(UpdateStatus(db, id, s1).db, id, s2) == UpdateStatus(db, id, s2)
  {
  }

  /** A retry with the record a successful create handed back keeps the id
      drawn the first time, so it hits the primary key instead of inserting
      a second copy; the second `newId` is never used. */
  lemma RetryReusesAssignedId(db: Db, draft: TransactionDraft, newId: Uuid, retryId: Uuid,
                              now: Time, later: Time)
    requires newId != Nil && retryId != Nil
    requires Create(db, draft, newId, now).result.Ok?
    ensures var first := Create(db, draft, newId, now);
      var retry := Create(first.db, first.record, retryId, later);
      && retry.record == first.record
      && retry.result == Failed(DuplicateId)
      && retry.db == first.db
  {
  }

  /** A create refused for its metadata still leaves the drawn id in the
      caller's record. */
  lemma FailedCreateKeepsAssignedId(db: Db, draft: TransactionDraft, newId: Uuid, now: Time)
    requires newId != Nil
    requires draft.id == Nil && !MetadataEncodes(draft)
    ensures var r := Create(db, draft, newId, now);
      r.result == Failed(MetadataEncoding) && r.record.id == newId && r.db == db
  {
  }

  /** The store lets two captures of the same authorization in: nothing in
      it keeps references unique. */
  lemma DuplicateCaptureAccepted()
    ensures var capture := TransactionDraft(Nil, 7, Capture, 500, "USD", Some(3), Captured,
                                            None, None, None);
      var first := Create(Db(map[], map[], map[]), capture, 10, 0);
      var second := Create(first.db, capture, 11, 0);
      && first.result == Ok(10) && second.result == Ok(11)
      && RefersTo(second.db.transactions[10], 3, Capture)
      && RefersTo(second.db.transactions[11], 3, Capture)
      && !UniqueReferences(second.db)
  {
    var capture := TransactionDraft(Nil, 7, Capture, 500, "USD", Some(3), Captured, None, None, None);
    var first := Create(Db(map[], map[], map[]), capture, 10, 0);
    var second := Create(first.db, capture, 11, 0);
    assert 10 in second.db.transactions && 11 in second.db.transactions;
  }
}
